=== FILE: README.md ===
# BdJobs scan-and-notify run, modelled in Dafny

The bot scans the BdJobs listing page for job cards. It keeps the postings whose title
contains one of its keywords, ignoring case. Each posting is identified by the MD5 digest
of its resolved link. Postings whose identifier is already in the history file are
skipped. Each new posting is added to the history, its detail page is fetched, a
summarising model is asked for four fields, and a Telegram message is sent. The history
file is rewritten only when the run added something.

The model is a pure fold over the configured sources and their cards. It threads a
`set<string>` history, the list of messages sent and the `new_found` flag.

- `Scan.Card` has one constructor for each way the code treats a card: no title block,
  a title block without an anchor, or an anchor with its text and optional `href`.
- `Scan.Source` is either a listing whose request failed or the cards it yielded.
- `Scan.Config` carries the keyword list and the collaborators as function values:
  - `resolve` stands for `urljoin` against the site's base URL;
  - `digest` stands for the MD5 hex digest;
  - `fetchPage` gives a detail page's text, or None when the request fails;
  - `summarize` gives the model's reply to a prompt.

  As Dafny functions they are deterministic. For `resolve`, `digest` and `fetchPage`
  within one run this is an assumption of the model, and for `summarize` it is a
  simplification (see "## Left out").
- Every message is a `Scan.Notice` tagged with the identifier of the posting it
  announces. The tag is not sent. It lets the contracts say which posting caused which
  message.
- `Keywords.Configured` holds the bot's 20 keywords.
- The list of listing URLs is not fixed in the model. The sources are the run's input.

Modules:
- `Text`: Python's `str.lower` (ASCII), `in` and `strip`, which the scanner calls, and
  `split` and `join`, which it does not call; they state how messages and the history
  file read back line by line.
- `Keywords`: the title filter.
- `History`: the history file format.
- `Notify`: the prompt, the model's reply and the messages.
- `Scan`: the run.
- `ScanProperties`: facts that relate runs, configurations and inputs.

## Behaviour the model keeps

Some consequences of how the code is written are easy to miss. The model keeps each one.

- **Malformed cards.** A card with no `job-title-text` block raises at main.py:98. So does
  a card whose title matched but whose anchor has no `href` (main.py:108). Either
  exception reaches the source-level handler at main.py:150, so the remaining cards of
  that source are dropped. Identifiers added before that card stay in the history
  (`ScanProperties.AbortDropsRest`). A card with no `href` whose title does not match is
  only skipped: the filter runs before `href` is read.
- **Failed detail fetch.** The message calls sit inside the same `try` as the fetch
  (main.py:122-148). A failed fetch therefore sends nothing. The identifier is still
  recorded (`ScanProperties.NoPageNoMessage`, `Scan.Visit`).
- **Non-object JSON reply.** If the model's JSON reply is truthy but not an object,
  `data.get` raises. No message is sent.
- **Empty JSON object.** An empty object is falsy, so the title-only fallback is sent.

## Model

| member | source | states |
|---|---|---|
| Keywords.Matches | main.py:104 | A title passes iff the lower-cased form of some keyword is a substring of the lower-cased title; an empty keyword list passes nothing |
| Keywords.MoreKeywordsMatchMore | main.py:104 | Keywords are OR-ed: adding keywords never drops a title that passed |
| Keywords.EmptyKeywordMatchesAll | main.py:104 | A keyword list holding the empty string passes every title, since `"" in t` always holds |
| Keywords.ConsultantTitleMatches | main.py:104 | With keywords "Consultant" and "Climate", "Senior National Consultant" passes |
| Keywords.DriverTitleDoesNotMatch | main.py:104 | With the same keywords, "Driver Required" does not pass |
| Text.Contains | main.py:104 | The substring test used by the filter holds iff some position of the text starts a copy of the keyword |
| Text.Strip | main.py:75 | The result of `line.strip()` neither begins nor ends with whitespace |
| Text.StripRemovesOnlySpace | main.py:75 | `line.strip()` is an infix of the line with only whitespace before and after it; with the row above this fixes it uniquely |
| History.Translate | main.py:75 | Text read in text mode holds no "\r", and a text without "\r" is read unchanged |
| History.TranslateCrLf | main.py:75 | A "\r\n" pair after "\r"-free text is read as one "\n" |
| History.TranslateLoneCr | main.py:75 | A "\r" not followed by "\n" is read as "\n" |
| History.Lines | main.py:75 | Iterating over the file yields non-empty lines; every line but the last ends in "\n" and holds no other "\n" |
| History.LinesPartition | main.py:75 | Reading line by line splits the text into lines that glue back into it, each line non-empty with "\n" at most at its end |
| History.Load | main.py:73-75 | A missing file loads as the empty set, and every loaded identifier is free of line breaks and surrounding whitespace |
| History.LinesAreSplit | main.py:75 | The lines of a text are its `split("\n")` pieces, each but the last with its "\n", and without the empty piece after a final "\n" |
| History.LoadSplit | main.py:73-75 | An identifier is loaded from an existing file exactly when it is the stripped form of a piece between line breaks of the text, other than the empty piece after a final line break |
| History.LoadDump | main.py:73-79 | Loading what save_history writes for an enumeration of identifiers without line breaks or surrounding whitespace gives back exactly that set |
| History.Save | main.py:77-79 | The text is the dump of an enumeration of the set, each identifier once and each written as its own line `id + "\n"`; it has one line per identifier and loads back as the same set |
| Notify.Truncate | main.py:54 | The text given to the model is the page text's prefix of length min(length, 8000) |
| Notify.PromptSeesOnlyPrefix | main.py:46-58 | Two pages that agree on their first 8000 characters yield the same prompt, so nothing past 8000 characters reaches the model |
| Notify.Compose | main.py:122-148 | A failed page fetch or a non-object reply sends nothing; no summary or an empty object sends the title-and-link fallback; a non-empty object sends the structured message |
| Notify.StructuredReadsBack | main.py:131-140 | The structured message splits into seven lines; the field lines hold the model's value or 'N/A', 'Not Mentioned', 'N/A', 'Negotiable' |
| Notify.FallbackIsOneLine | main.py:141-143 | The fallback is a single line holding the title and link |
| Notify.FallbackIsNotStructured | main.py:131-143 | The fallback never coincides with a structured message, whatever the title, link and fields |
| Scan.Visit | main.py:96-148 | A card that does not abort adds exactly the identifier of a matching new posting, before any fetch, so a failed fetch sends nothing while the identifier is kept; a card that is no new candidate changes nothing; a new candidate sends exactly the message composed from its title, link, page and reply, when one is composed |
| Scan.ScanCards | main.py:96-149 | A listing's cards only grow the history; each added identifier comes from a matching card of the listing; new messages carry distinct newly added identifiers |
| Scan.ScanSources | main.py:87-151 | The sources in order only grow the history; each added identifier is offered by a card of a reachable source |
| Scan.Run | main.py:81-154 | The final history contains the loaded one; at most one message per identifier, none for an identifier already known; new_found holds iff the history changed |
| Scan.CheckJobs | main.py:81-154 | The file is rewritten iff the run changed the history; what is written is one line `id + "\n"` per identifier of the final history, in some order, and reads back as that history |
| ScanProperties.ReachedCandidateIsSeen | main.py:113-119 | A matching posting that the scan of its listing reaches is in the history afterwards |
| ScanProperties.CandidateIsSeenAfterRun | main.py:118-148 | A matching posting reached in any reachable source is in the run's final history, whatever the page fetch, the model or the send did |
| ScanProperties.HistoryIgnoresOutcomes | main.py:118-148 | The final history and the save decision are the same for any detail-page and model outcomes |
| ScanProperties.EveryMessageIsComposed | main.py:113-143 | Every message a run sends is the message composed for a posting, in a reachable source, that offers the message's identifier |
| ScanProperties.NoPageNoMessage | main.py:122-148 | When every detail fetch fails, the run sends no message |
| ScanProperties.EveryNewPostingAnnouncedOnce | main.py:113-143 | When every page loads and no reply is a non-object, the messages announce exactly the added identifiers, each once |
| ScanProperties.AbortDropsRest | main.py:96-151 | A card that raises ends its source: the cards after it do not matter, and the work before it stands |
| ScanProperties.UnreachableSourceIgnored | main.py:87-151 | An unreachable source changes nothing: the run equals the run without that source |
| ScanProperties.RerunIsQuiet | main.py:113-154 | Re-running over the same listings from the history a run produced sends nothing, adds nothing and does not save |
| ScanProperties.FirstSighting | main.py:81-154 | From an empty history, a card "Individual Consultant - WASH" with href "/jobs/123" adds only its identifier, sets new_found, and with a page but no summary sends the fallback with the resolved link |
| ScanProperties.KnownPostingIsQuiet | main.py:113-114 | With that identifier already in the history, the same listing sends nothing and saves nothing |

## Left out

- HTTP requests for the listing and detail pages (main.py:90, 124) are network I/O. Their
  outcomes are inputs: `Source.Unreachable` and `Config.fetchPage`.
- BeautifulSoup parsing and `get_text` (main.py:91-101, 125-126) are a foreign library.
  Cards arrive already extracted and detail pages arrive as text. A title is taken as
  `get_text(" ", strip=True)` gives it: each text fragment of the anchor stripped, and the
  fragments joined with one space. The model accepts any title string.
- `urllib.parse.urljoin` and `hashlib.md5` (main.py:109-110) are foreign. They are the
  function parameters `resolve` and `digest`. Collision resistance is not modelled, and
  neither is a `ValueError` that `urljoin` can raise on a malformed URL.
- The OpenRouter client and `json.loads` (main.py:28-31, 60-71) are an external service.
  Their outcome is `Notify.Reply`. JSON field values are modelled as strings, so the
  `str()` formatting of non-string values is left out. An empty API key gives
  `NoSummary` (main.py:43-44). So does an unset one when the client library finds a key
  elsewhere (`OPENAI_API_KEY`). Otherwise the client constructor at main.py:28-31 raises
  at import and no scan runs.
- The model's reply is taken as a function of the prompt. Two postings whose page texts
  agree in their first 8000 characters therefore get the same reply, which a real model
  need not give. No property stated here depends on this.
- `send_telegram` (main.py:33-39) swallows every error. Each message is recorded when
  `send_telegram` is called, and the result of the send has no effect on the run.
- `time.sleep`, `print` logging and the `os.environ` lookups (main.py:23-25, 145) have
  no behaviour to state.
- Keywords.Matches: Python's Unicode `str.lower` is modelled as ASCII lower-casing, so
  titles with non-ASCII capitals may be judged differently.
- History.Load: failures to read or write the history file, and the file's text
  encoding, are not modelled. The file is taken as a string of characters. It is
  overwritten in place, not atomically, and an interrupted write is not modelled.
  `History.Dump` writes "\n" after each identifier. In text mode `f.write` (main.py:79)
  writes `os.linesep`, which is "\r\n" on Windows. Reading translates it back to "\n"
  (`History.TranslateCrLf`), but the written text itself is not modelled on that platform.
- Scan.CheckJobs: requires every digest to be free of line breaks and surrounding
  whitespace. Every MD5 hex digest is.

=== FILE: history.dfy ===
/** The history file: the identifiers of the postings already processed, one per line.
    It is read in Python's text mode (universal newlines), line by line, each line
    stripped of surrounding whitespace, and written back as a full dump of the set. */
module History {
  import opened Wrappers
  import opened Text

  /** Text-mode reading with universal newlines: "\r\n" and a lone "\r" both read as "\n". */
  function Translate(s: string): (r: string)
    ensures '\r' !in r
    ensures '\r' !in s ==> r == s
    decreases |s|
  {
    if s == [] then []
    else if s[0] == '\r' then
      if |s| > 1 && s[1] == '\n' then "\n" + Translate(s[2..]) else "\n" + Translate(s[1..])
    else
      [s[0]] + Translate(s[1..])
  }

  /** Carriage-return-free text reads as it stands, whatever follows it. */
  lemma {:induction false} TranslatePrefix(a: string, b: string)
    requires '\r' !in a
    ensures Translate(a + b) == a + Translate(b)
    decreases |a|
  {
    if a != [] {
      var u := a + b;
      assert u[0] == a[0] && u[0] != '\r';
      assert Translate(u) == [a[0]] + Translate(u[1..]);
      assert u[1..] == a[1..] + b;
      TranslatePrefix(a[1..], b);
      assert [a[0]] + (a[1..] + Translate(b)) == a + Translate(b);
    } else {
      assert a + b == b;
    }
  }

  /** A "\r\n" pair reads as "\n". */
  lemma TranslateCrLf(a: string, b: string)
    requires '\r' !in a
    ensures Translate(a + "\r\n" + b) == a + "\n" + Translate(b)
  {
    TranslatePrefix(a, "\r\n" + b);
    assert a + "\r\n" + b == a + ("\r\n" + b);
    assert ("\r\n" + b)[2..] == b;
  }

  /** A "\r" not followed by "\n" reads as "\n" too. */
  lemma TranslateLoneCr(a: string, b: string)
    requires '\r' !in a && (b == [] || b[0] != '\n')
    ensures Translate(a + "\r" + b) == a + "\n" + Translate(b)
  {
    TranslatePrefix(a, "\r" + b);
    assert a + "\r" + b == a + ("\r" + b);
    assert ("\r" + b)[1..] == b;
  }

  /** The lines glued back together. */
  function Concat(lines: seq<string>): string
  {
    if lines == [] then "" else lines[0] + Concat(lines[1..])
  }

  /** A line as iteration over a file yields it: not empty, "\n" at most at its end. */
  predicate IsLine(line: string)
  {
    line != [] && '\n' !in line[..|line| - 1]
  }

  /** Iterating over a file object: every line keeps its "\n", only the last may lack one. */
  function Lines(s: string): (r: seq<string>)
    ensures forall k :: 0 <= k < |r| ==> IsLine(r[k]) && (k < |r| - 1 ==> r[k][|r[k]| - 1] == '\n')
    ensures '\r' !in s ==> forall k :: 0 <= k < |r| ==> '\r' !in r[k]
    decreases |s|
  {
    if s == [] then []
    else if '\n' !in s then [s]
    else
      var i := IndexOf(s, '\n');
      var rest := Lines(s[i + 1..]);
      assert s[..i + 1][..i] == s[..i];
      assert '\r' !in s ==> '\r' !in s[..i + 1] && '\r' !in s[i + 1..];
      [s[..i + 1]] + rest
  }

  /** A line followed by "\n" is read as the first line, whatever follows it. */
  lemma LinesCons(line: string, rest: string)
    requires '\n' !in line
    ensures Lines(line + "\n" + rest) == [line + "\n"] + Lines(rest)
  {
    var s := line + "\n" + rest;
    assert s[|line|] == '\n';
    var i := IndexOf(s, '\n');
    assert s[..|line|] == line;
    assert i == |line|;
    assert s[..i + 1] == line + "\n";
    assert s[i + 1..] == rest;
  }

  /** The lines partition the text: glued back together they give it back. */
  lemma {:induction false} LinesPartition(s: string)
    ensures Concat(Lines(s)) == s
    decreases |s|
  {
    if s != [] && '\n' in s {
      var i := IndexOf(s, '\n');
      var line := s[..i];
      var rest := s[i + 1..];
      assert s == line + "\n" + rest;
      LinesCons(line, rest);
      LinesPartition(rest);
      ConcatCons(line + "\n", Lines(rest));
    } else if s != [] {
      assert Lines(s) == [s];
      ConcatCons(s, []);
    }
  }

  /** Gluing a line in front of lines. */
  lemma ConcatCons(line: string, lines: seq<string>)
    ensures Concat([line] + lines) == line + Concat(lines)
  {
    assert ([line] + lines)[1..] == lines;
  }

  /** An identifier that survives a write and a re-read: no line break inside it and no
      whitespace at either end. Every MD5 hex digest is one. */
  predicate Storable(id: string)
  {
    Trimmed(id) && '\n' !in id && '\r' !in id
  }

  /** A line read back with `line.strip()` holds no line break of its own. */
  lemma StrippedLineStorable(line: string)
    requires IsLine(line) && '\r' !in line
    ensures Storable(Strip(line))
  {
    StripKeepsOut(line, '\r');
    var body := line[..|line| - 1];
    if line[|line| - 1] == '\n' {
      assert line == body + "\n";
      StripIgnoresTail(body, "\n");
      StripKeepsOut(body, '\n');
    } else {
      assert line == body + [line[|line| - 1]];
      StripKeepsOut(line, '\n');
    }
  }

  /** The pieces between "\n"s, each but the last given back its "\n"; an empty last piece
      (after a final "\n", or of an empty text) is no line. */
  function Ended(p: seq<string>): (lines: seq<string>)
    requires |p| >= 1
    ensures |lines| == (if p[|p| - 1] == [] then |p| - 1 else |p|)
    ensures forall k :: 0 <= k < |lines| ==> lines[k] == p[k] + (if k < |p| - 1 then "\n" else "")
  {
    if |p| == 1 then (if p[0] == [] then [] else assert p[0] + "" == p[0]; p)
    else [p[0] + "\n"] + Ended(p[1..])
  }

  /** Reading line by line agrees with `str.split` on "\n". */
  lemma {:induction false} LinesAreSplit(t: string)
    ensures Lines(t) == Ended(Split(t, '\n'))
    decreases |t|
  {
    if t != [] && '\n' in t {
      var i := IndexOf(t, '\n');
      var rest := t[i + 1..];
      assert t[..i + 1] == t[..i] + "\n";
      LinesAreSplit(rest);
      var p := Split(t, '\n');
      assert p == [t[..i]] + Split(rest, '\n');
      assert p[1..] == Split(rest, '\n');
    }
  }

  /** `load_history()` in terms of `str.split`: an identifier is loaded exactly when it is
      a stripped piece between line breaks of the translated text, the empty piece after a
      final line break left out. */
  lemma LoadSplit(text: string, id: string)
    ensures var p := Split(Translate(text), '\n');
      id in Load(Some(text)) <==>
      exists k :: 0 <= k < |p| && (k < |p| - 1 || p[k] != []) && Strip(p[k]) == id
  {
    var t := Translate(text);
    LoadIsStrippedLines(text, id);
    StrippedLinesArePieces(t);
    SameImages(Lines(t), Split(t, '\n'), Strip, id);
  }

  /** Two enumerations with the same image under `f`, position by position, the second one
      possibly longer by a final empty entry, have the same images. */
  lemma SameImages(lines: seq<string>, p: seq<string>, f: string -> string, id: string)
    requires |p| >= 1 && |lines| == (if p[|p| - 1] == [] then |p| - 1 else |p|)
    requires forall k :: 0 <= k < |lines| ==> f(lines[k]) == f(p[k])
    ensures (exists line :: line in lines && f(line) == id) <==>
      exists k :: 0 <= k < |p| && (k < |p| - 1 || p[k] != []) && f(p[k]) == id
  {
    if exists line :: line in lines && f(line) == id {
      var line :| line in lines && f(line) == id;
      var k :| 0 <= k < |lines| && lines[k] == line;
      assert f(p[k]) == id;
    }
    if exists k :: 0 <= k < |p| && (k < |p| - 1 || p[k] != []) && f(p[k]) == id {
      var k :| 0 <= k < |p| && (k < |p| - 1 || p[k] != []) && f(p[k]) == id;
      assert lines[k] in lines;
    }
  }

  /** `load_history()` for an existing file, as membership: the stripped lines. */
  lemma LoadIsStrippedLines(text: string, id: string)
    ensures id in Load(Some(text)) <==> exists line :: line in Lines(Translate(text)) && Strip(line) == id
  {
  }

  /** Each line strips to what its `split` piece strips to. */
  lemma StrippedLinesArePieces(t: string)
    ensures var p := Split(t, '\n');
      && |Lines(t)| == (if p[|p| - 1] == [] then |p| - 1 else |p|)
      && forall k :: 0 <= k < |Lines(t)| ==> Strip(Lines(t)[k]) == Strip(p[k])
  {
    var p := Split(t, '\n');
    var lines := Lines(t);
    LinesAreSplit(t);
    forall k | 0 <= k < |lines| ensures Strip(lines[k]) == Strip(p[k]) {
      StripLineEnd(lines[k], p[k], k < |p| - 1);
    }
  }

  /** The "\n" that ends a line is stripped with the rest of the trailing whitespace. */
  lemma StripLineEnd(line: string, piece: string, ended: bool)
    requires line == piece + (if ended then "\n" else "")
    ensures Strip(line) == Strip(piece)
  {
    if ended {
      StripIgnoresTail(piece, "\n");
    } else {
      assert line == piece;
    }
  }

  /** `load_history()`: a missing file is the empty set, otherwise the set of stripped lines. */
  function Load(file: Option<string>): (ids: set<string>)
    ensures file.None? ==> ids == {}
    ensures forall id :: id in ids ==> Storable(id)
  {
    match file
    case None => {}
    case Some(text) =>
      var lines := Lines(Translate(text));
      forall line | line in lines ensures Storable(Strip(line)) {
        var k :| 0 <= k < |lines| && lines[k] == line;
        StrippedLineStorable(line);
      }
      set line | line in lines :: Strip(line)
  }

  /** What `save_history` writes when the set is enumerated in the order `ids`. */
  function Dump(ids: seq<string>): string
  {
    if ids == [] then "" else ids[0] + "\n" + Dump(ids[1..])
  }

  /** Writing one more identifier appends its line to the text. */
  lemma {:induction false} DumpSnoc(ids: seq<string>, id: string)
    ensures Dump(ids + [id]) == Dump(ids) + id + "\n"
  {
    if ids != [] {
      assert (ids + [id])[1..] == ids[1..] + [id];
      DumpSnoc(ids[1..], id);
    }
  }

  /** Each identifier followed by its line break. */
  function Terminated(ids: seq<string>): (lines: seq<string>)
    ensures |lines| == |ids|
    ensures forall k :: 0 <= k < |ids| ==> lines[k] == ids[k] + "\n"
  {
    if ids == [] then [] else [ids[0] + "\n"] + Terminated(ids[1..])
  }

  /** A dump reads back as one line per identifier, in the order written. */
  lemma {:induction false} DumpLines(ids: seq<string>)
    requires forall k :: 0 <= k < |ids| ==> '\n' !in ids[k]
    ensures Lines(Dump(ids)) == Terminated(ids)
  {
    if ids != [] {
      LinesCons(ids[0], Dump(ids[1..]));
      DumpLines(ids[1..]);
    }
  }

  /** A text without carriage returns is loaded line by line as it stands. */
  lemma LoadPlain(text: string)
    requires '\r' !in text
    ensures Load(Some(text)) == set line | line in Lines(text) :: Strip(line)
  {
    assert Translate(text) == text;
  }

  /** Loading a dump of storable identifiers gives exactly those identifiers back. */
  lemma LoadDump(ids: seq<string>)
    requires forall k :: 0 <= k < |ids| ==> Storable(ids[k])
    ensures Load(Some(Dump(ids))) == set id | id in ids
  {
    DumpHasNoReturn(ids);
    LoadPlain(Dump(ids));
    DumpLines(ids);
    StripTerminated(ids);
    StrippedSet(Terminated(ids), ids);
  }

  /** Each written line of a trimmed identifier strips back to the identifier. */
  lemma StripTerminated(ids: seq<string>)
    requires forall k :: 0 <= k < |ids| ==> Trimmed(ids[k])
    ensures forall k :: 0 <= k < |ids| ==> Strip(Terminated(ids)[k]) == ids[k]
  {
    var lines := Terminated(ids);
    forall k | 0 <= k < |ids| ensures Strip(lines[k]) == ids[k] {
      StripTrailing(ids[k], "\n");
    }
  }

  /** Lines that strip position by position to the identifiers load as their set. */
  lemma StrippedSet(lines: seq<string>, ids: seq<string>)
    requires |lines| == |ids|
    requires forall k :: 0 <= k < |ids| ==> Strip(lines[k]) == ids[k]
    ensures (set line | line in lines :: Strip(line)) == set id | id in ids
  {
    var loaded := set line | line in lines :: Strip(line);
    forall id | id in loaded ensures id in ids {
      var line :| line in lines && Strip(line) == id;
      var k :| 0 <= k < |lines| && lines[k] == line;
    }
    forall id | id in ids ensures id in loaded {
      var k :| 0 <= k < |ids| && ids[k] == id;
      assert lines[k] in lines;
    }
  }

  /** Identifiers without "\r" give a dump without "\r". */
  lemma {:induction false} DumpHasNoReturn(ids: seq<string>)
    requires forall k :: 0 <= k < |ids| ==> '\r' !in ids[k]
    ensures '\r' !in Dump(ids)
  {
    if ids != [] {
      DumpHasNoReturn(ids[1..]);
    }
  }

  /** `text` is what `save_history` writes for `seen` in some enumeration order: each
      identifier once, each as a line of its own followed by "\n". */
  ghost predicate WrittenAs(text: string, seen: set<string>)
  {
    exists order :: |order| == |seen| && (forall id :: id in order <==> id in seen) && text == Dump(order)
  }

  /** `save_history(seen)`: writes every identifier of the set on a line of its own, in
      whatever order the set is enumerated (returned as `order`); reading the file back
      gives the set again. */
  method Save(seen: set<string>) returns (text: string, order: seq<string>)
    requires forall id :: id in seen ==> Storable(id)
    ensures |order| == |seen| && forall id :: id in order <==> id in seen
    ensures text == Dump(order)
    ensures Load(Some(text)) == seen
    ensures |Lines(text)| == |seen|
  {
    var rest := seen;
    order := [];
    text := "";
    while rest != {}
      invariant rest <= seen
      invariant text == Dump(order)
      invariant forall id :: id in order <==> id in seen && id !in rest
      invariant |order| + |rest| == |seen|
      decreases |rest|
    {
      var id :| id in rest;
      DumpSnoc(order, id);
      text := text + id + "\n";
      order := order + [id];
      rest := rest - {id};
    }
    DumpReadsBack(order, seen);
  }

  /** A dump of an enumeration of a set of storable identifiers reads back as the set, one
      line per identifier. */
  lemma DumpReadsBack(order: seq<string>, seen: set<string>)
    requires forall id :: id in seen ==> Storable(id)
    requires forall id :: id in order <==> id in seen
    requires |order| == |seen|
    ensures Load(Some(Dump(order))) == seen
    ensures |Lines(Dump(order))| == |seen|
  {
    assert forall k :: 0 <= k < |order| ==> order[k] in seen;
    LoadDump(order);
    assert (set id | id in order) == seen;
    DumpLines(order);
  }
}

=== FILE: keywords.dfy ===
/** The title filter of the scan: a posting is kept when any configured keyword occurs in
    its title, ignoring case. */
module Keywords {
  import opened Text

  /** The keyword list the scanner is configured with, in its configured order. */
  const Configured: seq<string> := [
    "Individual Consultant", "SIC", "Consultant", "National Consultant",
    "Individual Local Consultant", "Local Consultant", "Environment",
    "Environmental", "Natural", "Disaster", "Water", "Expert", "Program", "Project",
    "Coordinator", "Manager", "Climate", "Monitoring", "Evaluation", "Specialist"
  ]

  /** The keyword `k` selects `title`: its lower-cased form is a substring of the
      lower-cased title. */
  ghost predicate Selects(k: string, title: string)
  {
    Occurs(Lower(k), Lower(title))
  }

  /** `any(k.lower() in title.lower() for k in keywords)`, evaluated left to right. */
  function Matches(title: string, keywords: seq<string>): (b: bool)
    ensures b <==> exists k :: k in keywords && Selects(k, title)
    ensures keywords == [] ==> !b
    decreases |keywords|
  {
    if keywords == [] then false
    else if Contains(Lower(title), Lower(keywords[0])) then
      assert Selects(keywords[0], title);
      true
    else
      assert keywords == [keywords[0]] + keywords[1..];
      Matches(title, keywords[1..])
  }

  /** Adding keywords never drops a title the shorter list kept: keywords are OR-ed. */
  lemma MoreKeywordsMatchMore(title: string, keywords: seq<string>, extra: seq<string>)
    requires Matches(title, keywords)
    ensures Matches(title, keywords + extra) && Matches(title, extra + keywords)
  {
    var k :| k in keywords && Selects(k, title);
    assert k in keywords + extra && k in extra + keywords;
  }

  /** A keyword list containing the empty string keeps every title. */
  lemma EmptyKeywordMatchesAll(title: string, keywords: seq<string>)
    requires "" in keywords
    ensures Matches(title, keywords)
  {
    assert Lower("") == "";
    assert OccursAt("", Lower(title), 0);
  }

  /** Case does not matter on either side: upper-casing a letter in the title changes nothing. */
  lemma MatchIgnoresCase(title: string, other: string, keywords: seq<string>)
    requires Lower(title) == Lower(other)
    ensures Matches(title, keywords) <==> Matches(other, keywords)
  {
  }

  /** A title carrying one of the keywords "Consultant" and "Climate" is kept. */
  lemma ConsultantTitleMatches()
    ensures Matches("Senior National Consultant", ["Consultant", "Climate"])
  {
    var t := "Senior National Consultant";
    assert Lower(t)[16..26] == "consultant";
    assert Lower("Consultant") == "consultant";
    assert OccursAt(Lower("Consultant"), Lower(t), 16);
    assert "Consultant" in ["Consultant", "Climate"];
  }

  /** A title carrying neither "Consultant" nor "Climate" is dropped. */
  lemma DriverTitleDoesNotMatch()
    ensures !Matches("Driver Required", ["Consultant", "Climate"])
  {
    var d := Lower("Driver Required");
    assert d == "driver required";
    assert 'c' !in d;
    assert Lower("Consultant") == "consultant";
    assert Lower("Climate") == "climate";
    FirstLetterAbsent("consultant", d);
    FirstLetterAbsent("climate", d);
    assert forall k :: k in ["Consultant", "Climate"] ==> k == "Consultant" || k == "Climate";
  }
}

=== FILE: notify.dfy ===
/** What is said about a new posting: the prompt handed to the summarising model, the
    shape of its reply, and the Telegram message built from the reply. */
module Notify {
  import opened Wrappers
  import opened Text

  /** At most this many characters of a posting's page text reach the model. */
  const PromptLimit: nat := 8000

  /** `raw_text[:8000]` */
  function Truncate(text: string): (r: string)
    ensures |r| == if |text| <= PromptLimit then |text| else PromptLimit
    ensures r == text[..|r|]
  {
    if |text| <= PromptLimit then text else text[..PromptLimit]
  }

  /** The instruction text around the page text, as the prompt's f-string lays it out. */
  const PromptHead: string :=
    "\n    You are a job analyst. Extract details from this BdJobs circular.\n    \n"
    + "    1. Project/Organization Name: (If not found, assume the Company Name)\n"
    + "    2. Education: (Summarize the required degree, e.g. \"Masters in Environmental Science\")\n"
    + "    3. Experience: (Years required)\n"
    + "    4. Salary: (Specific amount or 'Negotiable')\n    \n"
    + "    RAW TEXT: \""
  const PromptTail: string :=
    "\"\n    \n    Return JSON format:\n"
    + "    {\"org\": \"...\", \"edu\": \"...\", \"exp\": \"...\", \"sal\": \"...\"}\n    "

  /** The prompt sent to the model for a posting whose page reads `text`. */
  function Prompt(text: string): string
  {
    PromptHead + Truncate(text) + PromptTail
  }

  /** The prompt carries the first 8000 characters of the page text verbatim and nothing of
      the rest: two pages that agree on their first 8000 characters give the same prompt. */
  lemma PromptSeesOnlyPrefix(text: string, other: string)
    requires |text| >= PromptLimit && |other| >= PromptLimit
    requires text[..PromptLimit] == other[..PromptLimit]
    ensures Prompt(text) == Prompt(other)
    ensures |Prompt(text)| == |PromptHead| + PromptLimit + |PromptTail|
  {
  }

  /** A page of at most 8000 characters reaches the model whole. */
  lemma ShortPageIsWhole(text: string)
    requires |text| <= PromptLimit
    ensures Prompt(text)[|PromptHead|..|PromptHead| + |text|] == text
  {
  }

  /** What `get_ai_summary` hands back, as the message step sees it:
      NoSummary — None (an empty or unset API key, a failed request, unparsable JSON) or a falsy JSON value;
      Object    — a JSON object; an empty one is falsy and counts as no summary;
      NonObject — a truthy JSON value that is not an object: `data.get` raises on it. */
  datatype Reply = NoSummary | Object(fields: map<string, string>) | NonObject

  /** `fields.get(key, default)` */
  function Get(fields: map<string, string>, key: string, default: string): (r: string)
    ensures key in fields ==> r == fields[key]
    ensures key !in fields ==> r == default
  {
    if key in fields then fields[key] else default
  }

  const Bell: string := "\U{1F514}"
  const StructuredHeader: string := Bell + " **New BdJobs Circular!**"
  const FallbackHeader: string := Bell + " **New Job:** "
  const OrgLabel: string := "\U{1F3E2} *Org:* "
  const EduLabel: string := "\U{1F393} *Edu:* "
  const ExpLabel: string := "\U{23F3} *Exp:* "
  const SalaryLabel: string := "\U{1F4B0} *Salary:* "

  /** The Markdown link to the posting. */
  function PostLink(title: string, link: string): string
  {
    "[" + title + "](" + link + ")"
  }

  /** The lines of the message sent when the model gave a summary, with the per-field
      defaults 'N/A', 'Not Mentioned', 'N/A' and 'Negotiable'. */
  function StructuredLines(title: string, link: string, fields: map<string, string>): seq<string>
  {
    [ StructuredHeader,
      "",
      "\U{1F4CC} *Post:* " + PostLink(title, link),
      OrgLabel + Get(fields, "org", "N/A"),
      EduLabel + Get(fields, "edu", "Not Mentioned"),
      ExpLabel + Get(fields, "exp", "N/A"),
      SalaryLabel + Get(fields, "sal", "Negotiable") ]
  }

  /** The message sent when the model gave a summary. */
  function Structured(title: string, link: string, fields: map<string, string>): string
  {
    Join(StructuredLines(title, link, fields), '\n')
  }

  /** The title-and-link message sent when there is no summary. */
  function Fallback(title: string, link: string): string
  {
    FallbackHeader + PostLink(title, link)
  }

  /** The message for a new posting, given the text of its page (None when fetching the
      page failed) and the model's answer to each prompt. None means nothing is sent. */
  function Compose(title: string, link: string, page: Option<string>, summarize: string -> Reply): (m: Option<string>)
    ensures page.None? ==> m.None?
    ensures page.Some? && summarize(Prompt(page.value)).NonObject? ==> m.None?
    ensures page.Some? && summarize(Prompt(page.value)).NoSummary? ==> m == Some(Fallback(title, link))
    ensures page.Some? && summarize(Prompt(page.value)).Object? ==>
      m == Some(if summarize(Prompt(page.value)).fields == map[] then Fallback(title, link)
                else Structured(title, link, summarize(Prompt(page.value)).fields))
  {
    match page
    case None => None
    case Some(text) =>
      match summarize(Prompt(text))
      case NonObject => None
      case Object(fields) => if fields != map[] then Some(Structured(title, link, fields)) else Some(Fallback(title, link))
      case NoSummary => Some(Fallback(title, link))
  }

  /** Read line by line, a summarised message gives back a header, a blank line, the post
      line and one labelled line per field, each holding the model's value or its default. */
  lemma StructuredReadsBack(title: string, link: string, fields: map<string, string>)
    requires '\n' !in title && '\n' !in link
    requires forall key :: key in fields ==> '\n' !in fields[key]
    ensures |Split(Structured(title, link, fields), '\n')| == 7
    ensures Split(Structured(title, link, fields), '\n')[2] == "\U{1F4CC} *Post:* " + PostLink(title, link)
    ensures Split(Structured(title, link, fields), '\n')[3] ==
      OrgLabel + (if "org" in fields then fields["org"] else "N/A")
    ensures Split(Structured(title, link, fields), '\n')[4] ==
      EduLabel + (if "edu" in fields then fields["edu"] else "Not Mentioned")
    ensures Split(Structured(title, link, fields), '\n')[5] ==
      ExpLabel + (if "exp" in fields then fields["exp"] else "N/A")
    ensures Split(Structured(title, link, fields), '\n')[6] ==
      SalaryLabel + (if "sal" in fields then fields["sal"] else "Negotiable")
  {
    var lines := StructuredLines(title, link, fields);
    NoBreakInPostLink(title, link);
    NoBreakInField(OrgLabel, fields, "org", "N/A");
    NoBreakInField(EduLabel, fields, "edu", "Not Mentioned");
    NoBreakInField(ExpLabel, fields, "exp", "N/A");
    NoBreakInField(SalaryLabel, fields, "sal", "Negotiable");
    assert '\n' !in StructuredHeader;
    assert '\n' !in "\U{1F4CC} *Post:* ";
    SplitJoin(lines, '\n');
  }

  lemma NoBreakInPostLink(title: string, link: string)
    requires '\n' !in title && '\n' !in link
    ensures '\n' !in PostLink(title, link) && '\n' !in "\U{1F4CC} *Post:* " + PostLink(title, link)
  {
  }

  lemma NoBreakInField(prefix: string, fields: map<string, string>, key: string, default: string)
    requires '\n' !in prefix && '\n' !in default
    requires forall key :: key in fields ==> '\n' !in fields[key]
    ensures '\n' !in prefix + Get(fields, key, default)
  {
  }

  /** The fallback is a single line holding the title and the link. */
  lemma FallbackIsOneLine(title: string, link: string)
    requires '\n' !in title && '\n' !in link
    ensures Split(Fallback(title, link), '\n') == [Fallback(title, link)]
  {
    NoBreakInPostLink(title, link);
    assert '\n' !in FallbackHeader;
  }

  /** The two kinds of message are told apart by their first line. */
  lemma FallbackIsNotStructured(title: string, link: string, fields: map<string, string>)
    ensures Fallback(title, link) != Structured(title, link, fields)
  {
    var lines := StructuredLines(title, link, fields);
    assert Structured(title, link, fields) == StructuredHeader + ['\n'] + Join(lines[1..], '\n');
    assert Structured(title, link, fields)[8] == 'B';
    assert Fallback(title, link)[8] == 'J';
  }
}

=== FILE: scan.dfy ===
/** One scan-and-notify run (`check_bdjobs`) as a pure fold. Every collaborator is an
    input: the listing pages arrive as already-extracted cards, and the link resolution,
    the digest, the detail-page fetch and the model's reply are functions in the Config. */
module Scan {
  import opened Wrappers
  import opened Keywords
  import opened Notify
  import History

  /** One job card of a listing page, as far as the run can tell from it. */
  datatype Card =
      /** No `div.job-title-text`: reading its anchor raises, which abandons the source. */
    | MissingTitleBlock
      /** The title block has no anchor: the card is skipped. */
    | MissingAnchor
      /** The anchor's text and its `href` attribute, if it has one. */
    | Posting(title: string, href: Option<string>)

  /** A configured listing page: the request for it failed, or it yielded these cards. */
  datatype Source = Unreachable | Listing(cards: seq<Card>)

  /** The keyword list and the collaborators, all fixed for the run. */
  datatype Config = Config(
    keywords: seq<string>,
    /** Resolution of an `href` against the site's base URL (`urljoin`). */
    resolve: string -> string,
    /** The posting identifier of a full link (the MD5 hex digest). */
    digest: string -> string,
    /** The text of a posting's detail page, or None when the request for it fails. */
    fetchPage: string -> Option<string>,
    /** The model's reply to a prompt. */
    summarize: string -> Reply)

  /** The absolute link of an `href` (`urljoin("https://jobs.bdjobs.com/", href)`). */
  function FullLink(cfg: Config, href: string): string
  {
    cfg.resolve(href)
  }

  /** The identifier of the posting an `href` points to. */
  function JobId(cfg: Config, href: string): string
  {
    cfg.digest(FullLink(cfg, href))
  }

  /** A message sent, tagged with the identifier of the posting it announces. The tag is
      not part of what is sent; it lets the model say which posting caused which message. */
  datatype Notice = Notice(jobId: string, text: string)

  /** What the run carries from card to card: the history set, the messages sent so far
      and whether anything was added to the history. */
  datatype State = State(seen: set<string>, sent: seq<Notice>, newFound: bool)

  /** The card raises before it can be dealt with, and the rest of its source is dropped:
      it has no title block, or its title passed the filter and its anchor has no `href`. */
  predicate Aborts(cfg: Config, card: Card)
  {
    || card.MissingTitleBlock?
    || (card.Posting? && Matches(card.title, cfg.keywords) && card.href.None?)
  }

  /** The card is a posting with a link whose title passes the filter. */
  predicate Candidate(cfg: Config, card: Card)
  {
    card.Posting? && card.href.Some? && Matches(card.title, cfg.keywords)
  }

  /** The card is a candidate posting whose identifier is `id`. */
  predicate Offers(cfg: Config, card: Card, id: string)
  {
    Candidate(cfg, card) && JobId(cfg, card.href.value) == id
  }

  /** The message a candidate posting gets once it is new: composed from its title, its
      full link, its page and the model's reply; None when nothing is sent. */
  function Announcement(cfg: Config, card: Card): Option<string>
    requires Candidate(cfg, card)
  {
    var link := FullLink(cfg, card.href.value);
    Compose(card.title, link, cfg.fetchPage(link), cfg.summarize)
  }

  /** `state` grew into `next`: the history only grew, the earlier messages are kept,
      every new message announces a distinct identifier that was added in between, and
      the changed flag was raised exactly when the history grew. */
  ghost predicate Extends(state: State, next: State)
  {
    && state.seen <= next.seen
    && |state.sent| <= |next.sent|
    && next.sent[..|state.sent|] == state.sent
    && (forall i :: |state.sent| <= i < |next.sent| ==> next.sent[i].jobId in next.seen - state.seen)
    && (forall i, j :: |state.sent| <= i < j < |next.sent| ==> next.sent[i].jobId != next.sent[j].jobId)
    && (next.newFound <==> state.newFound || next.seen != state.seen)
  }

  /** Growth composes: two steps that each extend the state extend it together. */
  lemma ExtendsTransitive(a: State, b: State, c: State)
    requires Extends(a, b) && Extends(b, c)
    ensures Extends(a, c)
  {
    assert c.sent[..|b.sent|][..|a.sent|] == c.sent[..|a.sent|];
    forall i | |a.sent| <= i < |b.sent| ensures c.sent[i] == b.sent[i] {
      assert c.sent[..|b.sent|][i] == c.sent[i];
    }
    assert c.seen == a.seen ==> b.seen == a.seen;
  }

  /** One card that does not abort its source: skip it, or record its posting as seen and
      announce it. The identifier is recorded before the detail page is fetched, so it is
      recorded whatever the fetch, the model or the message send do. */
  function Visit(cfg: Config, state: State, card: Card): (next: State)
    requires !Aborts(cfg, card)
    ensures forall id :: id in next.seen <==> id in state.seen || Offers(cfg, card, id)
    ensures Extends(state, next)
    ensures |next.sent| <= |state.sent| + 1
    ensures card.Posting? && card.href.Some? && cfg.fetchPage(FullLink(cfg, card.href.value)).None?
            ==> next.sent == state.sent
    ensures !Candidate(cfg, card) || JobId(cfg, card.href.value) in state.seen ==> next == state
    ensures Candidate(cfg, card) && JobId(cfg, card.href.value) !in state.seen ==>
      next.sent == state.sent + (match Announcement(cfg, card)
                                 case Some(text) => [Notice(JobId(cfg, card.href.value), text)]
                                 case None => [])
  {
    if !card.Posting? || !Matches(card.title, cfg.keywords) then state
    else
      var href := card.href.value;
      var id := JobId(cfg, href);
      if id in state.seen then state
      else
        var link := FullLink(cfg, href);
        var message := Compose(card.title, link, cfg.fetchPage(link), cfg.summarize);
        var notices := if message.Some? then [Notice(id, message.value)] else [];
        var next := State(state.seen + {id}, state.sent + notices, true);
        assert next.sent[..|state.sent|] == state.sent;
        next
  }

  /** The cards of one listing page, in order, up to the first card that aborts. */
  function ScanCards(cfg: Config, state: State, cards: seq<Card>): (next: State)
    ensures Extends(state, next)
    ensures forall id :: id in next.seen - state.seen ==> exists c :: c in cards && Offers(cfg, c, id)
    decreases |cards|
  {
    if cards == [] || Aborts(cfg, cards[0]) then state
    else
      var mid := Visit(cfg, state, cards[0]);
      var next := ScanCards(cfg, mid, cards[1..]);
      ExtendsTransitive(state, mid, next);
      forall id | id in next.seen - state.seen ensures exists c :: c in cards && Offers(cfg, c, id) {
        if id in mid.seen {
          assert cards[0] in cards && Offers(cfg, cards[0], id);
        } else {
          assert id in next.seen - mid.seen;
          var c :| c in cards[1..] && Offers(cfg, c, id);
          assert c in cards;
        }
      }
      next
  }

  /** One configured source; an unreachable one leaves everything as it was. */
  function ScanSource(cfg: Config, state: State, source: Source): State
  {
    match source
    case Unreachable => state
    case Listing(cards) => ScanCards(cfg, state, cards)
  }

  /** Some card of some reachable source offers `id`. */
  ghost predicate OfferedBy(cfg: Config, sources: seq<Source>, id: string)
  {
    exists s :: s in sources && s.Listing? && exists c :: c in s.cards && Offers(cfg, c, id)
  }

  /** The configured sources, in order. */
  function ScanSources(cfg: Config, state: State, sources: seq<Source>): (next: State)
    ensures Extends(state, next)
    ensures forall id :: id in next.seen - state.seen ==> OfferedBy(cfg, sources, id)
    decreases |sources|
  {
    if sources == [] then state
    else
      var mid := ScanSource(cfg, state, sources[0]);
      var next := ScanSources(cfg, mid, sources[1..]);
      ExtendsTransitive(state, mid, next);
      forall id | id in next.seen - state.seen ensures OfferedBy(cfg, sources, id) {
        if id in mid.seen {
          assert id in mid.seen - state.seen;
          assert sources[0] in sources;
        } else {
          assert id in next.seen - mid.seen;
          var s :| s in sources[1..] && s.Listing? && exists c :: c in s.cards && Offers(cfg, c, id);
          assert s in sources;
        }
      }
      next
  }

  /** The scan of `check_bdjobs`, from the loaded history. The history only grows, every
      added identifier belongs to a posting that passed the filter, every message
      announces a distinct newly added identifier, and the history is to be saved exactly
      when it changed. */
  function Run(cfg: Config, loaded: set<string>, sources: seq<Source>): (r: State)
    ensures loaded <= r.seen
    ensures forall id :: id in r.seen - loaded ==> OfferedBy(cfg, sources, id)
    ensures forall i :: 0 <= i < |r.sent| ==> r.sent[i].jobId in r.seen - loaded
    ensures forall i, j :: 0 <= i < j < |r.sent| ==> r.sent[i].jobId != r.sent[j].jobId
    ensures r.newFound <==> r.seen != loaded
  {
    var r := ScanSources(cfg, State(loaded, [], false), sources);
    assert r.sent[..0] == [];
    r
  }

  /** `check_bdjobs` with its file: load the history (None when the file is missing), scan,
      and write the history back only when the scan added to it. Whatever happens, the file
      afterwards reads as the run's final history. */
  method CheckJobs(cfg: Config, file: Option<string>, sources: seq<Source>)
    returns (sent: seq<Notice>, written: Option<string>)
    requires forall link :: History.Storable(cfg.digest(link))
    ensures sent == Run(cfg, History.Load(file), sources).sent
    ensures written.Some? <==> Run(cfg, History.Load(file), sources).seen != History.Load(file)
    ensures written.Some? ==> History.Load(written) == Run(cfg, History.Load(file), sources).seen
    ensures written.Some? ==> History.WrittenAs(written.value, Run(cfg, History.Load(file), sources).seen)
  {
    var loaded := History.Load(file);
    var r := Run(cfg, loaded, sources);
    sent := r.sent;
    if r.newFound {
      forall id | id in r.seen ensures History.Storable(id) {
        if id !in loaded {
          assert OfferedBy(cfg, sources, id);
          var s :| s in sources && s.Listing? && exists c :: c in s.cards && Offers(cfg, c, id);
          var c :| c in s.cards && Offers(cfg, c, id);
          assert id == cfg.digest(FullLink(cfg, c.href.value));
        }
      }
      var text, order := History.Save(r.seen);
      written := Some(text);
    } else {
      written := None;
    }
  }
}

=== FILE: scan_properties.dfy ===
/** Properties of the scan that relate several runs, several configurations or several
    arrangements of the input. */
module ScanProperties {
  import opened Wrappers
  import opened Text
  import opened Keywords
  import opened Notify
  import opened Scan

  /** No card before position `j` aborts the source, so the card at `j` is dealt with. */
  ghost predicate Reached(cfg: Config, cards: seq<Card>, j: int)
  {
    0 <= j < |cards| && forall k :: 0 <= k < j ==> !Aborts(cfg, cards[k])
  }

  lemma ReachedShift(cfg: Config, cards: seq<Card>, j: int)
    requires |cards| > 0 && !Aborts(cfg, cards[0]) && Reached(cfg, cards[1..], j)
    ensures Reached(cfg, cards, j + 1)
  {
    forall k | 0 <= k < j + 1 ensures !Aborts(cfg, cards[k]) {
      if k > 0 {
        assert cards[k] == cards[1..][k - 1];
      }
    }
  }

  // ---------------------------------------------------------------------------
  // A new posting is marked seen whatever happens to its page, its summary or its message.

  /** A candidate posting that the scan reaches ends up in the history. */
  lemma {:induction false} ReachedCandidateIsSeen(cfg: Config, state: State, cards: seq<Card>, j: int)
    requires Reached(cfg, cards, j) && Candidate(cfg, cards[j])
    ensures JobId(cfg, cards[j].href.value) in ScanCards(cfg, state, cards).seen
    decreases j
  {
    var mid := Visit(cfg, state, cards[0]);
    if j > 0 {
      assert Reached(cfg, cards[1..], j - 1);
      assert cards[1..][j - 1] == cards[j];
      ReachedCandidateIsSeen(cfg, mid, cards[1..], j - 1);
    } else {
      assert Offers(cfg, cards[0], JobId(cfg, cards[0].href.value));
    }
  }

  /** In a run, every candidate posting of a reachable source that comes before any card
      aborting that source is in the final history, whether or not its page was fetched,
      the model answered, or a message went out. */
  lemma {:induction false} CandidateIsSeenAfterRun(cfg: Config, state: State, sources: seq<Source>, i: int, j: int)
    requires 0 <= i < |sources| && sources[i].Listing?
    requires Reached(cfg, sources[i].cards, j) && Candidate(cfg, sources[i].cards[j])
    ensures JobId(cfg, sources[i].cards[j].href.value) in ScanSources(cfg, state, sources).seen
    decreases i
  {
    var mid := ScanSource(cfg, state, sources[0]);
    if i == 0 {
      ReachedCandidateIsSeen(cfg, state, sources[0].cards, j);
    } else {
      assert sources[1..][i - 1] == sources[i];
      CandidateIsSeenAfterRun(cfg, mid, sources[1..], i - 1, j);
    }
  }

  /** The history a run leaves, and whether it is saved, depend only on the keywords, the
      link resolution and the digest: the detail pages and the model's replies play no part. */
  lemma {:induction false} CardsHistoryIgnoresOutcomes(
    cfg: Config, fetchPage: string -> Option<string>, summarize: string -> Reply,
    a: State, b: State, cards: seq<Card>)
    requires a.seen == b.seen && a.newFound == b.newFound
    ensures ScanCards(cfg, a, cards).seen
         == ScanCards(cfg.(fetchPage := fetchPage, summarize := summarize), b, cards).seen
    ensures ScanCards(cfg, a, cards).newFound
         == ScanCards(cfg.(fetchPage := fetchPage, summarize := summarize), b, cards).newFound
    decreases |cards|
  {
    var other := cfg.(fetchPage := fetchPage, summarize := summarize);
    if cards != [] && !Aborts(cfg, cards[0]) {
      assert !Aborts(other, cards[0]);
      var ma := Visit(cfg, a, cards[0]);
      var mb := Visit(other, b, cards[0]);
      assert forall id :: Offers(cfg, cards[0], id) <==> Offers(other, cards[0], id);
      assert ma.seen == mb.seen;
      CardsHistoryIgnoresOutcomes(cfg, fetchPage, summarize, ma, mb, cards[1..]);
    }
  }

  lemma {:induction false} SourcesHistoryIgnoresOutcomes(
    cfg: Config, fetchPage: string -> Option<string>, summarize: string -> Reply,
    a: State, b: State, sources: seq<Source>)
    requires a.seen == b.seen && a.newFound == b.newFound
    ensures ScanSources(cfg, a, sources).seen
         == ScanSources(cfg.(fetchPage := fetchPage, summarize := summarize), b, sources).seen
    ensures ScanSources(cfg, a, sources).newFound
         == ScanSources(cfg.(fetchPage := fetchPage, summarize := summarize), b, sources).newFound
    decreases |sources|
  {
    var other := cfg.(fetchPage := fetchPage, summarize := summarize);
    if sources != [] {
      var ma := ScanSource(cfg, a, sources[0]);
      var mb := ScanSource(other, b, sources[0]);
      if sources[0].Listing? {
        CardsHistoryIgnoresOutcomes(cfg, fetchPage, summarize, a, b, sources[0].cards);
      }
      SourcesHistoryIgnoresOutcomes(cfg, fetchPage, summarize, ma, mb, sources[1..]);
    }
  }

  lemma HistoryIgnoresOutcomes(
    cfg: Config, fetchPage: string -> Option<string>, summarize: string -> Reply,
    loaded: set<string>, sources: seq<Source>)
    ensures Run(cfg, loaded, sources).seen
         == Run(cfg.(fetchPage := fetchPage, summarize := summarize), loaded, sources).seen
    ensures Run(cfg, loaded, sources).newFound
         == Run(cfg.(fetchPage := fetchPage, summarize := summarize), loaded, sources).newFound
  {
    var start := State(loaded, [], false);
    SourcesHistoryIgnoresOutcomes(cfg, fetchPage, summarize, start, start, sources);
  }

  // ---------------------------------------------------------------------------
  // Failed detail fetches send nothing; working ones announce every new posting once.

  /** Every detail-page request fails. */
  ghost predicate NoPageLoads(cfg: Config)
  {
    forall link :: cfg.fetchPage(link).None?
  }

  /** Every detail page loads and the model never answers with a non-object. */
  ghost predicate EveryPageAnnounced(cfg: Config)
  {
    (forall link :: cfg.fetchPage(link).Some?) && (forall p :: !cfg.summarize(p).NonObject?)
  }

  lemma VisitSends(cfg: Config, state: State, card: Card)
    requires !Aborts(cfg, card)
    ensures NoPageLoads(cfg) ==> Visit(cfg, state, card).sent == state.sent
    ensures EveryPageAnnounced(cfg) ==>
      |Visit(cfg, state, card).sent| == |state.sent| + |Visit(cfg, state, card).seen - state.seen|
  {
    var next := Visit(cfg, state, card);
    if next.seen != state.seen {
      var id :| id in next.seen && id !in state.seen;
      assert Offers(cfg, card, id);
      assert next.seen == state.seen + {id};
      assert next.seen - state.seen == {id};
    } else {
      assert next.seen - state.seen == {};
    }
  }

  lemma DifferenceSplits(a: set<string>, b: set<string>, c: set<string>)
    requires a <= b <= c
    ensures |c - a| == |b - a| + |c - b|
  {
    assert c - a == (b - a) + (c - b);
    assert (b - a) * (c - b) == {};
  }

  lemma {:induction false} CardsSends(cfg: Config, state: State, cards: seq<Card>)
    ensures NoPageLoads(cfg) ==> ScanCards(cfg, state, cards).sent == state.sent
    ensures EveryPageAnnounced(cfg) ==>
      |ScanCards(cfg, state, cards).sent| == |state.sent| + |ScanCards(cfg, state, cards).seen - state.seen|
    decreases |cards|
  {
    if cards != [] && !Aborts(cfg, cards[0]) {
      var mid := Visit(cfg, state, cards[0]);
      VisitSends(cfg, state, cards[0]);
      CardsSends(cfg, mid, cards[1..]);
      DifferenceSplits(state.seen, mid.seen, ScanCards(cfg, mid, cards[1..]).seen);
    } else {
      assert ScanCards(cfg, state, cards).seen - state.seen == {};
    }
  }

  lemma {:induction false} SourcesSends(cfg: Config, state: State, sources: seq<Source>)
    ensures NoPageLoads(cfg) ==> ScanSources(cfg, state, sources).sent == state.sent
    ensures EveryPageAnnounced(cfg) ==>
      |ScanSources(cfg, state, sources).sent| == |state.sent| + |ScanSources(cfg, state, sources).seen - state.seen|
    decreases |sources|
  {
    if sources != [] {
      var mid := ScanSource(cfg, state, sources[0]);
      if sources[0].Listing? {
        CardsSends(cfg, state, sources[0].cards);
      } else {
        assert mid.seen - state.seen == {};
      }
      SourcesSends(cfg, mid, sources[1..]);
      DifferenceSplits(state.seen, mid.seen, ScanSources(cfg, mid, sources[1..]).seen);
    } else {
      assert state.seen - state.seen == {};
    }
  }

  /** When no detail page loads, a run sends nothing. Its history is still the one it would
      have reached with every page loading (HistoryIgnoresOutcomes). */
  lemma NoPageNoMessage(cfg: Config, loaded: set<string>, sources: seq<Source>)
    requires NoPageLoads(cfg)
    ensures Run(cfg, loaded, sources).sent == []
  {
    SourcesSends(cfg, State(loaded, [], false), sources);
  }

  /** When every page loads and the model never answers with a non-object, every posting
      added to the history is announced exactly once. */
  lemma EveryNewPostingAnnouncedOnce(cfg: Config, loaded: set<string>, sources: seq<Source>)
    requires EveryPageAnnounced(cfg)
    ensures |Run(cfg, loaded, sources).sent| == |Run(cfg, loaded, sources).seen - loaded|
    ensures forall id :: id in Run(cfg, loaded, sources).seen - loaded <==>
      exists i :: 0 <= i < |Run(cfg, loaded, sources).sent| && Run(cfg, loaded, sources).sent[i].jobId == id
  {
    var r := Run(cfg, loaded, sources);
    SourcesSends(cfg, State(loaded, [], false), sources);
    var ids := set i | 0 <= i < |r.sent| :: r.sent[i].jobId;
    assert ids <= r.seen - loaded;
    DistinctTagsCount(r.sent);
    SubsetOfSameSize(ids, r.seen - loaded);
  }

  lemma {:induction false} DistinctTagsCount(ns: seq<Notice>)
    requires forall i, j :: 0 <= i < j < |ns| ==> ns[i].jobId != ns[j].jobId
    ensures |set i | 0 <= i < |ns| :: ns[i].jobId| == |ns|
  {
    if ns != [] {
      var last := |ns| - 1;
      var init := ns[..last];
      DistinctTagsCount(init);
      var tags := set i | 0 <= i < |ns| :: ns[i].jobId;
      var initTags := set i | 0 <= i < |init| :: init[i].jobId;
      assert tags == initTags + {ns[last].jobId};
      assert ns[last].jobId !in initTags;
    }
  }

  lemma SubsetOfSameSize(a: set<string>, b: set<string>)
    requires a <= b && |a| == |b|
    ensures a == b
  {
    assert b == a + (b - a) && a * (b - a) == {};
    assert |b - a| == 0;
  }

  // ---------------------------------------------------------------------------
  // Every message is the one composed for a posting that offers its identifier.

  /** Some card of `cards` offers the notice's identifier and composes exactly its text. */
  ghost predicate Announces(cfg: Config, cards: seq<Card>, n: Notice)
  {
    exists c :: c in cards && Offers(cfg, c, n.jobId) && Announcement(cfg, c) == Some(n.text)
  }

  /** A card that is dealt with sends at most the message announcing itself. */
  lemma VisitAnnounces(cfg: Config, state: State, cards: seq<Card>)
    requires cards != [] && !Aborts(cfg, cards[0])
    ensures var mid := Visit(cfg, state, cards[0]);
      forall i :: |state.sent| <= i < |mid.sent| ==> Announces(cfg, cards, mid.sent[i])
  {
    var card := cards[0];
    var mid := Visit(cfg, state, card);
    if |mid.sent| > |state.sent| {
      assert Candidate(cfg, card) && JobId(cfg, card.href.value) !in state.seen;
      var n := mid.sent[|state.sent|];
      assert n == Notice(JobId(cfg, card.href.value), Announcement(cfg, card).value);
      assert card in cards && Offers(cfg, card, n.jobId);
    }
  }

  /** Announcing from the later cards is announcing from the listing. */
  lemma AnnouncesFromRest(cfg: Config, cards: seq<Card>, n: Notice)
    requires cards != [] && Announces(cfg, cards[1..], n)
    ensures Announces(cfg, cards, n)
  {
    var c :| c in cards[1..] && Offers(cfg, c, n.jobId) && Announcement(cfg, c) == Some(n.text);
    assert c in cards;
  }

  lemma {:induction false} CardsAnnounce(cfg: Config, state: State, cards: seq<Card>)
    ensures var next := ScanCards(cfg, state, cards);
      forall i :: |state.sent| <= i < |next.sent| ==> Announces(cfg, cards, next.sent[i])
    decreases |cards|
  {
    var next := ScanCards(cfg, state, cards);
    if cards != [] && !Aborts(cfg, cards[0]) {
      var mid := Visit(cfg, state, cards[0]);
      assert next == ScanCards(cfg, mid, cards[1..]);
      VisitAnnounces(cfg, state, cards);
      CardsAnnounce(cfg, mid, cards[1..]);
      forall i | |state.sent| <= i < |next.sent| ensures Announces(cfg, cards, next.sent[i]) {
        if i < |mid.sent| {
          assert next.sent[..|mid.sent|][i] == next.sent[i];
        } else {
          AnnouncesFromRest(cfg, cards, next.sent[i]);
        }
      }
    }
  }

  /** Some reachable source has a card announcing the notice. */
  ghost predicate AnnouncedIn(cfg: Config, sources: seq<Source>, n: Notice)
  {
    exists s :: s in sources && s.Listing? && Announces(cfg, s.cards, n)
  }

  /** The first source announces whatever its scan sends. */
  lemma SourceAnnounces(cfg: Config, state: State, sources: seq<Source>)
    requires sources != []
    ensures var mid := ScanSource(cfg, state, sources[0]);
      forall i :: |state.sent| <= i < |mid.sent| ==> AnnouncedIn(cfg, sources, mid.sent[i])
  {
    var mid := ScanSource(cfg, state, sources[0]);
    if sources[0].Listing? {
      CardsAnnounce(cfg, state, sources[0].cards);
      assert mid == ScanCards(cfg, state, sources[0].cards);
      forall i | |state.sent| <= i < |mid.sent| ensures AnnouncedIn(cfg, sources, mid.sent[i]) {
        assert sources[0] in sources && Announces(cfg, sources[0].cards, mid.sent[i]);
      }
    }
  }

  lemma AnnouncedInFromRest(cfg: Config, sources: seq<Source>, n: Notice)
    requires sources != [] && AnnouncedIn(cfg, sources[1..], n)
    ensures AnnouncedIn(cfg, sources, n)
  {
    var s :| s in sources[1..] && s.Listing? && Announces(cfg, s.cards, n);
    assert s in sources;
  }

  lemma {:induction false} SourcesAnnounce(cfg: Config, state: State, sources: seq<Source>)
    ensures var next := ScanSources(cfg, state, sources);
      forall i :: |state.sent| <= i < |next.sent| ==> AnnouncedIn(cfg, sources, next.sent[i])
    decreases |sources|
  {
    var next := ScanSources(cfg, state, sources);
    if sources != [] {
      var mid := ScanSource(cfg, state, sources[0]);
      assert next == ScanSources(cfg, mid, sources[1..]);
      SourceAnnounces(cfg, state, sources);
      SourcesAnnounce(cfg, mid, sources[1..]);
      forall i | |state.sent| <= i < |next.sent| ensures AnnouncedIn(cfg, sources, next.sent[i]) {
        if i < |mid.sent| {
          assert next.sent[..|mid.sent|][i] == next.sent[i];
        } else {
          AnnouncedInFromRest(cfg, sources, next.sent[i]);
        }
      }
    }
  }

  /** Every message a run sends is the message composed, from its title, link, page and
      the model's reply, for a posting of a reachable source that offers its identifier. */
  lemma EveryMessageIsComposed(cfg: Config, loaded: set<string>, sources: seq<Source>)
    ensures var r := Run(cfg, loaded, sources);
      forall i :: 0 <= i < |r.sent| ==> AnnouncedIn(cfg, sources, r.sent[i])
  {
    var start := State(loaded, [], false);
    assert Run(cfg, loaded, sources) == ScanSources(cfg, start, sources);
    SourcesAnnounce(cfg, start, sources);
  }

  // ---------------------------------------------------------------------------
  // A card that raises drops the rest of its source; an unreachable source drops itself.

  /** Nothing after a card that aborts its source is looked at, while everything done
      before it stands. */
  lemma {:induction false} AbortDropsRest(cfg: Config, state: State, before: seq<Card>, bad: Card, after: seq<Card>)
    requires Aborts(cfg, bad)
    ensures ScanCards(cfg, state, before + [bad] + after) == ScanCards(cfg, state, before)
    decreases |before|
  {
    var cards := before + [bad] + after;
    if before == [] {
      assert cards[0] == bad;
    } else {
      assert cards[0] == before[0];
      if !Aborts(cfg, before[0]) {
        var mid := Visit(cfg, state, before[0]);
        assert cards[1..] == before[1..] + [bad] + after;
        AbortDropsRest(cfg, mid, before[1..], bad, after);
      }
    }
  }

  /** An unreachable source changes nothing: the run is the run without it. */
  lemma {:induction false} UnreachableSourceIgnored(cfg: Config, state: State, before: seq<Source>, after: seq<Source>)
    ensures ScanSources(cfg, state, before + [Unreachable] + after) == ScanSources(cfg, state, before + after)
    decreases |before|
  {
    if before == [] {
      assert (before + [Unreachable] + after)[1..] == after;
      assert before + after == after;
    } else {
      var mid := ScanSource(cfg, state, before[0]);
      assert (before + [Unreachable] + after)[1..] == before[1..] + [Unreachable] + after;
      assert (before + after)[1..] == before[1..] + after;
      UnreachableSourceIgnored(cfg, mid, before[1..], after);
    }
  }

  // ---------------------------------------------------------------------------
  // Re-running over the same listings with the history the run produced does nothing.

  /** Every candidate posting the scan of `cards` reaches is already in `seen`. */
  ghost predicate CoversCards(cfg: Config, seen: set<string>, cards: seq<Card>)
  {
    forall j :: Reached(cfg, cards, j) && Candidate(cfg, cards[j]) ==> JobId(cfg, cards[j].href.value) in seen
  }

  ghost predicate CoversSources(cfg: Config, seen: set<string>, sources: seq<Source>)
  {
    forall i :: 0 <= i < |sources| && sources[i].Listing? ==> CoversCards(cfg, seen, sources[i].cards)
  }

  lemma {:induction false} ScanSourcesCovers(cfg: Config, state: State, sources: seq<Source>)
    ensures CoversSources(cfg, ScanSources(cfg, state, sources).seen, sources)
    decreases |sources|
  {
    if sources != [] {
      var mid := ScanSource(cfg, state, sources[0]);
      var next := ScanSources(cfg, mid, sources[1..]);
      ScanSourcesCovers(cfg, mid, sources[1..]);
      forall i | 0 <= i < |sources| && sources[i].Listing? ensures CoversCards(cfg, next.seen, sources[i].cards) {
        if i == 0 {
          forall j | Reached(cfg, sources[0].cards, j) && Candidate(cfg, sources[0].cards[j])
            ensures JobId(cfg, sources[0].cards[j].href.value) in next.seen
          {
            ReachedCandidateIsSeen(cfg, state, sources[0].cards, j);
          }
        } else {
          assert sources[1..][i - 1] == sources[i];
        }
      }
    }
  }

  lemma {:induction false} CoveredCardsChangeNothing(cfg: Config, state: State, cards: seq<Card>)
    requires CoversCards(cfg, state.seen, cards)
    ensures ScanCards(cfg, state, cards) == state
    decreases |cards|
  {
    if cards != [] && !Aborts(cfg, cards[0]) {
      assert Reached(cfg, cards, 0);
      assert Visit(cfg, state, cards[0]) == state;
      forall j | Reached(cfg, cards[1..], j) && Candidate(cfg, cards[1..][j])
        ensures JobId(cfg, cards[1..][j].href.value) in state.seen
      {
        ReachedShift(cfg, cards, j);
        assert cards[1..][j] == cards[j + 1];
      }
      CoveredCardsChangeNothing(cfg, state, cards[1..]);
    }
  }

  lemma {:induction false} CoveredSourcesChangeNothing(cfg: Config, state: State, sources: seq<Source>)
    requires CoversSources(cfg, state.seen, sources)
    ensures ScanSources(cfg, state, sources) == state
    decreases |sources|
  {
    if sources != [] {
      if sources[0].Listing? {
        CoveredCardsChangeNothing(cfg, state, sources[0].cards);
      }
      forall i | 0 <= i < |sources[1..]| && sources[1..][i].Listing?
        ensures CoversCards(cfg, state.seen, sources[1..][i].cards)
      {
        assert sources[1..][i] == sources[i + 1];
      }
      CoveredSourcesChangeNothing(cfg, state, sources[1..]);
    }
  }

  /** A second run over the same listings, from the history the first run produced, sends
      no message, adds nothing and does not save. */
  lemma RerunIsQuiet(cfg: Config, loaded: set<string>, sources: seq<Source>)
    ensures Run(cfg, Run(cfg, loaded, sources).seen, sources)
         == State(Run(cfg, loaded, sources).seen, [], false)
  {
    var first := Run(cfg, loaded, sources);
    ScanSourcesCovers(cfg, State(loaded, [], false), sources);
    CoveredSourcesChangeNothing(cfg, State(first.seen, [], false), sources);
  }

  // ---------------------------------------------------------------------------
  // The two scenarios of a single posting.

  const Title: string := "Individual Consultant - WASH"
  const Href: string := "/jobs/123"

  /** One listing holding one posting. */
  const OnePosting: seq<Source> := [Listing([Posting(Title, Some(Href))])]

  lemma TitleMatchesConfigured()
    ensures Matches(Title, Configured)
  {
    assert Lower(Title)[..21] == Lower(Configured[0]);
    assert OccursAt(Lower(Configured[0]), Lower(Title), 0);
  }

  /** With an empty history, a matching posting is added to the history, the history is
      saved, and if its page loads and the model has no summary the title-and-link message
      goes out with the resolved link. */
  lemma FirstSighting(cfg: Config)
    requires cfg.keywords == Configured
    ensures Run(cfg, {}, OnePosting).seen == {JobId(cfg, Href)}
    ensures Run(cfg, {}, OnePosting).newFound
    ensures cfg.fetchPage(FullLink(cfg, Href)).Some?
            && cfg.summarize(Prompt(cfg.fetchPage(FullLink(cfg, Href)).value)).NoSummary?
            ==> Run(cfg, {}, OnePosting).sent
                == [Notice(JobId(cfg, Href), Fallback(Title, FullLink(cfg, Href)))]
  {
    TitleMatchesConfigured();
    var card := Posting(Title, Some(Href));
    var start := State({}, [], false);
    assert !Aborts(cfg, card);
    var mid := Visit(cfg, start, card);
    assert ScanCards(cfg, start, [card]) == ScanCards(cfg, mid, []);
    assert ScanSources(cfg, start, OnePosting) == ScanSources(cfg, mid, []);
  }

  /** With that posting already in the history, the same listing sends nothing and saves nothing. */
  lemma KnownPostingIsQuiet(cfg: Config)
    requires cfg.keywords == Configured
    ensures Run(cfg, {JobId(cfg, Href)}, OnePosting) == State({JobId(cfg, Href)}, [], false)
  {
    FirstSighting(cfg);
    RerunIsQuiet(cfg, {}, OnePosting);
  }
}

=== FILE: text.dfy ===
/** String operations of Python's `str`: `lower`, `in` (substring) and `strip`, which the
    scanner calls, and `split`/`join` on a separator character, which it does not call but
    which state how its messages and its history file read back line by line. */
module Text {

  /** ASCII lower-casing of one character; every other character is left alone. */
  function LowerChar(c: char): char
  {
    if 'A' <= c <= 'Z' then (c as int + 32) as char else c
  }

  /** `s.lower()`, restricted to the ASCII letters. */
  function Lower(s: string): (r: string)
    ensures |r| == |s|
    ensures forall i :: 0 <= i < |s| ==> r[i] == LowerChar(s[i])
  {
    seq(|s|, i requires 0 <= i < |s| => LowerChar(s[i]))
  }

  /** `p` occurs in `s` starting at position `i`. */
  ghost predicate OccursAt(p: string, s: string, i: int)
  {
    0 <= i && i + |p| <= |s| && s[i..i + |p|] == p
  }

  /** Python's `p in s` for strings, as a definition: some position of `s` starts a copy of `p`. */
  ghost predicate Occurs(p: string, s: string)
  {
    exists i :: OccursAt(p, s, i)
  }

  /** The executable substring test, scanning the start positions of `s` from the left. */
  function Contains(s: string, p: string): (b: bool)
    ensures b <==> Occurs(p, s)
    ensures p == [] ==> b
    decreases |s|
  {
    if |p| <= |s| && s[..|p|] == p then
      assert OccursAt(p, s, 0);
      true
    else if s == [] then
      assert forall i :: !OccursAt(p, s, i);
      false
    else
      var b := Contains(s[1..], p);
      assert b ==> OccursAt(p, s, 1 + (var j :| OccursAt(p, s[1..], j); j));
      assert forall i :: OccursAt(p, s, i) && i >= 1 ==> OccursAt(p, s[1..], i - 1);
      b
  }

  /** A string whose first character does not appear in `s` does not occur in `s`. */
  lemma FirstLetterAbsent(p: string, s: string)
    requires p != [] && p[0] !in s
    ensures !Occurs(p, s)
  {
  }

  /** Python's `str.isspace` for one character: the Unicode whitespace set of Python 3. */
  predicate IsSpace(c: char)
  {
    || '\U{9}' <= c <= '\U{D}'
    || '\U{1C}' <= c <= '\U{20}'
    || c == '\U{85}' || c == '\U{A0}' || c == '\U{1680}'
    || '\U{2000}' <= c <= '\U{200A}'
    || c == '\U{2028}' || c == '\U{2029}' || c == '\U{202F}' || c == '\U{205F}' || c == '\U{3000}'
  }

  /** Every character of `s` is whitespace. */
  predicate AllSpace(s: string)
  {
    forall i :: 0 <= i < |s| ==> IsSpace(s[i])
  }

  /** `s` neither begins nor ends with whitespace. */
  predicate Trimmed(s: string)
  {
    s == [] || (!IsSpace(s[0]) && !IsSpace(s[|s| - 1]))
  }

  /** Length of the run of whitespace that `s` begins with. */
  function LeadingSpace(s: string): (i: nat)
    ensures i <= |s| && AllSpace(s[..i])
    ensures i == |s| || !IsSpace(s[i])
    decreases |s|
  {
    if s != [] && IsSpace(s[0]) then
      var k := LeadingSpace(s[1..]);
      assert s[..k + 1] == [s[0]] + s[1..][..k];
      k + 1
    else 0
  }

  /** Where the run of whitespace that `s` ends with begins. */
  function TrailingSpace(s: string): (j: nat)
    ensures j <= |s| && AllSpace(s[j..])
    ensures j == 0 || !IsSpace(s[j - 1])
    decreases |s|
  {
    if s != [] && IsSpace(s[|s| - 1]) then
      var t := s[..|s| - 1];
      var k := TrailingSpace(t);
      assert s[k..] == t[k..] + [s[|s| - 1]];
      k
    else |s|
  }

  /** `s.strip()`: drops the leading and trailing whitespace and nothing else
      (StripRemovesOnlySpace). */
  function Strip(s: string): (r: string)
    ensures Trimmed(r)
  {
    var j := TrailingSpace(s);
    var i := LeadingSpace(s[..j]);
    assert s[..j][i..] == s[i..j];
    s[i..j]
  }

  /** The stripped string is an infix of `s` with only whitespace around it; as it is also
      trimmed, this fixes it uniquely. */
  lemma StripRemovesOnlySpace(s: string)
    ensures var r := Strip(s);
      exists i :: 0 <= i <= |s| - |r| && r == s[i..i + |r|] && AllSpace(s[..i]) && AllSpace(s[i + |r|..])
  {
    var j := TrailingSpace(s);
    var i := LeadingSpace(s[..j]);
    assert s[..j][..i] == s[..i];
    assert s[..j][i..] == s[i..j];
    assert Strip(s) == s[i..j] && s[i..j] == s[i..i + |s[i..j]|];
  }

  /** Whitespace appended to a string does not move where its trailing whitespace begins. */
  lemma {:induction false} TrailingSpaceIgnoresTail(s: string, tail: string)
    requires AllSpace(tail)
    ensures TrailingSpace(s + tail) == TrailingSpace(s)
    decreases |tail|
  {
    if tail == [] {
      assert s + tail == s;
    } else {
      var shorter := tail[..|tail| - 1];
      assert (s + tail)[..|s + tail| - 1] == s + shorter;
      TrailingSpaceIgnoresTail(s, shorter);
    }
  }

  /** Stripping ignores whitespace appended to the string. */
  lemma StripIgnoresTail(s: string, tail: string)
    requires AllSpace(tail)
    ensures Strip(s + tail) == Strip(s)
  {
    TrailingSpaceIgnoresTail(s, tail);
    var j := TrailingSpace(s);
    assert (s + tail)[..j] == s[..j];
  }

  /** Stripping a trimmed string followed by trailing whitespace gives the string back. */
  lemma StripTrailing(s: string, tail: string)
    requires Trimmed(s) && AllSpace(tail)
    ensures Strip(s + tail) == s
  {
    StripIgnoresTail(s, tail);
    assert s[..|s|] == s;
  }

  /** A character absent from a string is absent from the stripped string. */
  lemma StripKeepsOut(s: string, c: char)
    requires c !in s
    ensures c !in Strip(s)
  {
    var j := TrailingSpace(s);
    var i := LeadingSpace(s[..j]);
    assert Strip(s) == s[i..j];
    assert forall x :: x in s[i..j] ==> x in s;
  }

  /** Index of the first `d` in `s`. */
  function IndexOf(s: string, d: char): (i: nat)
    requires d in s
    ensures i < |s| && s[i] == d && d !in s[..i]
  {
    if s[0] == d then 0 else
      var i := IndexOf(s[1..], d);
      assert s[..i + 1] == [s[0]] + s[1..][..i];
      i + 1
  }

  /** `s.split(d)`: the pieces between the occurrences of `d`. */
  function Split(s: string, d: char): (r: seq<string>)
    ensures |r| >= 1
    decreases |s|
  {
    if d !in s then [s]
    else
      var i := IndexOf(s, d);
      [s[..i]] + Split(s[i + 1..], d)
  }

  /** `d.join(pieces)` */
  function Join(pieces: seq<string>, d: char): string
  {
    if pieces == [] then ""
    else if |pieces| == 1 then pieces[0]
    else pieces[0] + [d] + Join(pieces[1..], d)
  }

  /** Splitting a join on the same separator gives the pieces back when no piece holds it. */
  lemma {:induction false} SplitJoin(pieces: seq<string>, d: char)
    requires |pieces| >= 1
    requires forall k :: 0 <= k < |pieces| ==> d !in pieces[k]
    ensures Split(Join(pieces, d), d) == pieces
  {
    if |pieces| > 1 {
      var rest := Join(pieces[1..], d);
      var s := pieces[0] + [d] + rest;
      assert s[|pieces[0]|] == d;
      var i := IndexOf(s, d);
      assert s[..|pieces[0]|] == pieces[0];
      assert i == |pieces[0]|;
      assert s[..i] == pieces[0];
      assert s[i + 1..] == rest;
      SplitJoin(pieces[1..], d);
    }
  }
}

=== FILE: wrappers.dfy ===
/** The optional-value datatype used wherever the scanner may or may not get a value back. */
module Wrappers {

  /** Some(value), or None where the program sees nothing (a missing file, a failed request). */
  datatype Option<+T> = None | Some(value: T)
}
